=== FILE: README.md ===
# SnakeGame engine in Dafny

A model of the game-state engine of the `Project4` snake game. It covers:

- `SnakeGame`: the constructor, `update`, `nextPoint`, `spawnFood`, `advanceSnake`, `inBounds`, `setDirection` and the getters;
- the two pluggable policies, `ScoringAlgorithm` and `SpawningAlgorithm`, with their reference implementations `MyScoringAlgorithm` and `MySpawningAlgorithm`;
- the `Point` value type.

The engine becomes an immutable `Game` value with pure transitions:

- The snake is a sequence, head first. Food and empty cells are sets; their order is not modelled (see Left out).
- Each policy is a function-valued parameter of the transitions that consult it, instead of a mutable field.
- The getters are the fields of `Game` (`width`, `height`, `snake`, `food`, `empty`, `score`, `gameOver`) plus `GetDirection` and `GetEmpty`.
- `Run` plays `n` ticks, standing in for the timer that calls `update` repeatedly.

Modules follow the source:

- `Points`: `Point.java`.
- `Directions`: the `DIR_*` constants and `nextPoint`.
- `Grid`: the board, `inBounds`, and the constructor's cell loop.
- `Seqs`: sequence helpers.
- `Scoring` and `Spawning`: the two policy interfaces and their implementations.
- `SnakeGame`: the engine.
- `GameProofs`: the invariant and the laws of every transition.
- `Scenarios`: concrete games from the start position, stated for every accepted board (`ScoreAfterCrash` for every width at height 5), plus the refusal of a narrow board.

The central invariant is `SnakeGame.Valid`:

- the snake is a duplicate-free, edge-connected path of at least three cells;
- the snake is not heading into its own neck;
- snake, food and empty cells partition the `width` x `height` board.

The constructor establishes it, and `setDirection`, `spawnFood`, `advanceSnake`, `update` and any number of ticks preserve it.

A collision test that includes the tail cell is taken from the code. `advanceSnake` ends the game when the next cell holds any snake segment, the tail included, even though the tail would leave that cell during the same move. The model follows the code, and `GameProofs.TailCellIsFatal` states the behaviour.

## Model

| member | source | states |
|---|---|---|
| Points.Equals | Project4/Point.java:5-10 | `equals` between two points is true exactly when they are the same point, i.e. both coordinates agree |
| Directions.FromCode | Project4/SnakeGame.java:24-38 | every `DIR_*` constant 0..3 denotes a direction whose constant is that number |
| Directions.CodeRoundTrip | Project4/SnakeGame.java:24-38 | directions and `DIR_*` constants correspond one to one |
| Directions.Next | Project4/SnakeGame.java:168-183 | `nextPoint` always yields a cell sharing an edge with the given one |
| Directions.NextThenOpposite | Project4/SnakeGame.java:168-183 | north (-y) undoes south (+y) and east (+x) undoes west (-x) |
| Directions.NextTwiceMovesOn | Project4/SnakeGame.java:168-183 | two steps in one direction never return to the start, which is why a snake that is not facing its neck cannot reach it |
| Directions.NextInjective | Project4/SnakeGame.java:168-183 | the four directions lead to four different cells |
| Directions.AdjacentIsNext | Project4/SnakeGame.java:168-183 | a cell is a neighbour exactly when some direction leads to it |
| Grid.InBoundsIsCell | Project4/SnakeGame.java:219-221 | `inBounds` holds exactly for the cells of the width x height board |
| Grid.ScanOrder | Project4/SnakeGame.java:113-118 | the constructor's nested loop visits width * height cells, every board cell exactly once |
| Grid.CellsCard | Project4/SnakeGame.java:113-118 | the board has exactly width * height cells |
| Scoring.MyScoringLaws | Project4/MyScoringAlgorithm.java:5-15 | the reference policy pays 1 per tick and 5 per segment at game over; neither depends on the time alive, and neither is negative for a real snake |
| Spawning.MySpawn | Project4/MySpawningAlgorithm.java:8-18 | at most one proposal; one exactly on ticks divisible by 5 when some cell is empty; the proposal is always one of the empty cells |
| Spawning.MySpawnReachesEveryCell | Project4/MySpawningAlgorithm.java:15-17 | on a spawning tick the random draw can select any empty cell and only empty cells |
| SnakeGame.Init | Project4/SnakeGame.java:95-140 | refused exactly when the width or the height is below 5, the width being checked first; otherwise score 0, time 0, running, heading north, no food |
| SnakeGame.SetDirection | Project4/SnakeGame.java:286-300 | refused exactly for values outside 0..3; otherwise only the direction may change, and it changes to the request unless that would face the neck, in which case the game is returned unchanged |
| SnakeGame.GetDirection | Project4/SnakeGame.java:272-277 | returns a `DIR_*` constant, and it is the current direction's |
| SnakeGame.GetEmpty | Project4/SnakeGame.java:251-256 | lists every empty cell of the board once and nothing else |
| SnakeGame.SpawnFood | Project4/SnakeGame.java:185-190 | an empty cell moves from the empty cells to the food; any other proposal leaves the game unchanged; the snake, score and time are untouched |
| SnakeGame.SpawnAll | Project4/SnakeGame.java:161-163 | after the loop over the proposals, food is the old food plus exactly the proposed cells that were empty, and empty loses exactly those cells |
| SnakeGame.Advance | Project4/SnakeGame.java:192-214 | the game ends exactly on a wall or any snake cell, paying the game-over score; on food the snake grows at the head and the food cell is consumed; otherwise the head moves and the old tail cell becomes empty |
| SnakeGame.Update | Project4/SnakeGame.java:151-166 | a finished game is unchanged; otherwise the tick ends the game exactly when the head is heading into a wall or any snake cell, a surviving snake's head moves to the next cell, time advances by one, the score gains the tick score (plus the game-over score if this tick ends the game), the snake grows by at most one, and a crash leaves the snake in place |
| SnakeGame.Run | Project4/SnakeGame.java:142-166 | repeated ticks keep the board size, never shrink the snake, and do nothing to a finished game |
| GameProofs.InitSnake | Project4/SnakeGame.java:120-126 | the starting snake is the centre cell and the two cells south of it, all on the board |
| GameProofs.InitState | Project4/SnakeGame.java:106-137 | the constructed game satisfies the invariant, and every cell except the three snake cells is empty |
| GameProofs.PartitionCount | Project4/SnakeGame.java:40-42 | in a valid game snake, food and empty cells together number width * height |
| GameProofs.SetDirectionPreservesValid | Project4/SnakeGame.java:286-300 | changing direction keeps the invariant, including "not facing the neck" |
| GameProofs.SetDirectionIdempotent | Project4/SnakeGame.java:286-300 | setting a direction twice is the same as setting it once |
| GameProofs.SetDirectionKeepsGameOver | Project4/SnakeGame.java:286-300 | changing direction neither revives a finished game nor changes the score |
| GameProofs.SpawnAllPreservesValid | Project4/SnakeGame.java:161-163 | the loop of `update` that hands every proposal to `spawnFood` keeps the invariant, whatever the proposals |
| GameProofs.AdvancePreservesValid | Project4/SnakeGame.java:192-214 | moving, growing and colliding all keep the invariant |
| GameProofs.UpdatePreservesValid | Project4/SnakeGame.java:151-166 | a whole tick keeps the invariant |
| GameProofs.RunPreservesValid | Project4/SnakeGame.java:151-166 | any number of ticks keeps the invariant |
| GameProofs.RunKeepsCount | Project4/SnakeGame.java:151-166 | after any number of ticks, snake, food and empty cells still number width * height |
| GameProofs.GameOverIsFinal | Project4/SnakeGame.java:151-155 | once a run has ended, every later tick leaves the game exactly as it was |
| GameProofs.TailCellIsFatal | Project4/SnakeGame.java:193-197 | heading into the tail's cell ends the game and the snake stays where it was |
| GameProofs.GrowthLaw | Project4/SnakeGame.java:199-202 | eating prepends the food cell, removes one food cell and leaves the empty cells alone |
| GameProofs.MoveLaw | Project4/SnakeGame.java:203-212 | a plain move prepends an empty cell and frees the tail cell, so the number of empty cells is unchanged |
| GameProofs.MySpawningTick | Project4/SnakeGame.java:157-163 | with the reference spawning policy plugged into `update`, a fifth tick with a free cell turns exactly one empty cell into food before the snake advances, and any other tick spawns nothing |
| GameProofs.SpawnOneEmptyCell | Project4/SnakeGame.java:185-190 | proposing one empty cell grows the food by exactly that cell |
| GameProofs.MySpawningAccepted | Project4/MySpawningAlgorithm.java:8-18 | on a spawning tick with a free cell, the reference policy fed the engine's empty cells always adds exactly one food cell, taken from the empty cells |
| GameProofs.MyScoringLiveTick | Project4/SnakeGame.java:157-159 | with the reference scoring, a tick the snake survives adds exactly one point |
| GameProofs.MyScoringCrashTick | Project4/SnakeGame.java:194-197 | with the reference scoring, the crashing tick adds 1 + 5 * the snake's length |
| GameProofs.MyScoringCountsTicks | Project4/MyScoringAlgorithm.java:6-9 | with the reference scoring, a game still running after n ticks has gained exactly n points and n time units |
| GameProofs.MyScoringFinalScore | Project4/MyScoringAlgorithm.java:11-15 | with the reference scoring, a game still running after n ticks and heading into a wall or itself ends on tick n + 1 with n + 1 points gained plus 5 per segment of the crashing snake |
| GameProofs.QuietMove | Project4/SnakeGame.java:203-212 | a tick with no proposals and a free cell ahead moves the snake one cell at unchanged length |
| GameProofs.FedAndEaten | Project4/SnakeGame.java:157-165 | food spawned on the cell ahead is eaten during the same tick, so the snake grows and the food is as before |
| GameProofs.CollisionEndsTick | Project4/SnakeGame.java:161-165 | a running game heading into a wall or into its own body ends on the next tick, whatever food the policy spawns first |
| Scenarios.NarrowBoardRefused | Project4/SnakeGame.java:96-99 | a board four cells wide is refused for its width, whatever its height |
| Scenarios.FirstTickMovesNorth | Project4/SnakeGame.java:120-137 | with the default policies the first tick moves the fresh snake one cell north, scoring nothing |
| Scenarios.ReversalRejected | Project4/SnakeGame.java:291-297 | asking a fresh snake to turn south is ignored and it keeps heading north |
| Scenarios.ScoreAfterCrash | Project4/SnakeGame.java:151-214 | on a board five cells high with the reference scoring and food spawned ahead, the snake eats, moves, and crashes on tick 3 with 4 segments and 23 points |

## Left out

- The Swing front end in `Project4/Snake.java` and `Project4/SnakePanel.java` is not part of this model: the window, the timer, key handling and drawing. `Run`'s tick count stands for the timer.
- Java `int` arithmetic is modelled with unbounded integers: the score, the time alive, the coordinates and `snakeSize * 5` are not wrapped at 32 bits. With `MyScoring` or `NoScoring` the score grows by at most 1 per tick plus one game-over payment of 5 per segment, so it stays far below 2^31 in any game of realistic length. With any other scoring policy the model's score is the exact sum of the policy's returns, while Java's `score +=` (`Project4/SnakeGame.java:159`, `:197`) wraps modulo 2^32; a policy returning large or fast-growing values can overflow in Java where the model does not.
- The exception messages are left out. Each refusal is a `GameError` that carries the offending value.
- The `NullPointerException`s of `setScoringAlgorithm` and `setSpawningAlgorithm` are left out, and so are those setters. The policies are parameters of every transition that uses them, so they cannot be null.
- The two-argument constructor's anonymous policies are `NoScoring` and `NoSpawning`. `Init` takes no policies.
- `java.util.Random` is replaced by a draw: an arbitrary natural number reduced modulo the number of empty cells. `MySpawning` takes one draw per tick.
- SnakeGame.Update: its contract does not itself describe the food and empty cells after a tick; those are stated by `SnakeGame.SpawnAll` and `SnakeGame.Advance`, which `Update` composes, and the partition they keep is proved by `GameProofs.UpdatePreservesValid`.
- SnakeGame.GetEmpty: lists the empty cells in board scan order, not in the insertion order of the source's `ArrayList`, which after a move holds the freed tail cell at its end. The set of cells is the same. The reference policy can still pick any of them (`Spawning.MySpawnReachesEveryCell`), but a custom policy that depends on the position of a cell in the array may propose differently.
- The order of `getFood()`'s array is not modelled, because food is a set.
- The `default` branch of `nextPoint` is left out. It cannot be reached: `direction` is always one of the four constants, which the `Direction` type makes structural.
- `Point.equals` with an argument that is not a `Point` is left out, because the types rule it out.
- `setDirection` after game over is allowed, as in the source. It changes only the direction.

=== FILE: directions.dfy ===
/** The four headings of Project4/SnakeGame.java and their unit vectors. */
module Directions {
  import opened Points

  datatype Direction = North | East | South | West

  /** The DIR_* constants a caller passes to `setDirection`. */
  const DirNorth: int := 0
  const DirEast: int := 1
  const DirSouth: int := 2
  const DirWest: int := 3

  /** The DIR_* constant that stands for `d`. */
  function Code(d: Direction): (c: int)
    ensures 0 <= c <= 3
  {
    match d
    case North => DirNorth
    case East => DirEast
    case South => DirSouth
    case West => DirWest
  }

  /** The direction a valid DIR_* constant stands for. */
  function FromCode(c: int): (d: Direction)
    requires 0 <= c <= 3
    ensures Code(d) == c
  {
    if c == DirNorth then North
    else if c == DirEast then East
    else if c == DirSouth then South
    else West
  }

  lemma CodeRoundTrip(d: Direction)
    ensures FromCode(Code(d)) == d
  {}

  /** `nextPoint`: the cell one step from `p` towards `d`; north is -y, south is +y. */
  function Next(p: Point, d: Direction): (q: Point)
    ensures Adjacent(p, q)
  {
    match d
    case North => Point(p.x, p.y - 1)
    case East => Point(p.x + 1, p.y)
    case South => Point(p.x, p.y + 1)
    case West => Point(p.x - 1, p.y)
  }

  function Opposite(d: Direction): Direction {
    match d
    case North => South
    case East => West
    case South => North
    case West => East
  }

  /** Stepping back the opposite way returns to the start. */
  lemma NextThenOpposite(p: Point, d: Direction)
    ensures Next(Next(p, d), Opposite(d)) == p
  {}

  /** Two steps the same way never come back to the start. */
  lemma NextTwiceMovesOn(p: Point, d: Direction)
    ensures Next(Next(p, d), d) != p
  {}

  /** The four neighbours are distinct. */
  lemma NextInjective(p: Point, d: Direction, e: Direction)
    requires Next(p, d) == Next(p, e)
    ensures d == e
  {}

  /** Every neighbour of `p` is reached by one of the four directions. */
  lemma AdjacentIsNext(p: Point, q: Point)
    ensures Adjacent(p, q) <==> exists d :: Next(p, d) == q
  {
    if Adjacent(p, q) {
      if q.x == p.x + 1 { assert Next(p, East) == q; }
      else if q.x == p.x - 1 { assert Next(p, West) == q; }
      else if q.y == p.y + 1 { assert Next(p, South) == q; }
      else { assert Next(p, North) == q; }
    }
  }
}

=== FILE: game_proofs.dfy ===
/** Properties of the engine: the constructor's result, the partition invariant kept by every
    transition, the one-way game over, and the reference policies played through the engine. */
module GameProofs {
  import opened Points
  import opened Seqs
  import opened Grid
  import opened Directions
  import opened Scoring
  import opened Spawning
  import opened SnakeGame

  /** A board of at least 5 x 5 yields the centred three-cell snake, heading north. */
  lemma InitSnake(width: int, height: int)
    requires width >= MinWidth && height >= MinHeight
    ensures Init(width, height).Ok?
    ensures Init(width, height).value.snake
              == [Point(width / 2, height / 2), Point(width / 2, height / 2 + 1), Point(width / 2, height / 2 + 2)]
    ensures Init(width, height).value.snake == InitialSnake(width, height)
    ensures forall p :: p in Init(width, height).value.snake ==> InBounds(p, width, height)
    ensures Init(width, height).value.empty == Cells(width, height) - Elems(InitialSnake(width, height))
  {}

  /** Every cell the starting snake does not occupy is empty, and the result satisfies the
      invariant. */
  lemma InitState(width: int, height: int)
    requires width >= MinWidth && height >= MinHeight
    ensures Init(width, height).Ok?
    ensures Init(width, height).value.empty == Cells(width, height) - Elems(Init(width, height).value.snake)
    ensures |Init(width, height).value.empty| == width * height - 3
    ensures Valid(Init(width, height).value)
  {
    InitSnake(width, height);
    StartValid(Init(width, height).value);
  }

  /** A board holding only the starting snake, with every other cell empty, satisfies the
      invariant and has width * height - 3 empty cells. */
  lemma StartValid(g: Game)
    requires g.width >= MinWidth && g.height >= MinHeight && g.timeAlive == 0
    requires g.direction == North && g.snake == InitialSnake(g.width, g.height)
    requires g.food == {} && g.empty == Cells(g.width, g.height) - Elems(g.snake)
    ensures |g.empty| == g.width * g.height - 3
    ensures Valid(g)
  {
    var snake := g.snake;
    StartSnakeFacts(g.width, g.height);
    CellsCard(g.width, g.height);
    assert |Cells(g.width, g.height) - Elems(snake)| == |Cells(g.width, g.height)| - |Elems(snake)|;
    assert Elems(snake) + g.food + g.empty == Cells(g.width, g.height);
  }

  /** The starting snake is a duplicate-free path of three cells on the board, not heading
      into its neck. */
  lemma StartSnakeFacts(width: int, height: int)
    requires width >= MinWidth && height >= MinHeight
    ensures var snake := InitialSnake(width, height);
            && Distinct(snake) && Connected(snake) && |Elems(snake)| == 3
            && Next(snake[0], North) != snake[1]
            && Elems(snake) <= Cells(width, height)
  {
    var snake := InitialSnake(width, height);
    InBoundsIsCell(snake[0], width, height);
    InBoundsIsCell(snake[1], width, height);
    InBoundsIsCell(snake[2], width, height);
    assert Distinct(snake);
    DistinctCard(snake);
    assert Adjacent(snake[0], snake[1]) && Adjacent(snake[1], snake[2]);
  }

  /** Snake, food and empty cells together count every cell of the board exactly once. */
  lemma PartitionCount(g: Game)
    requires Valid(g)
    ensures |g.snake| + |g.food| + |g.empty| == g.width * g.height
  {
    DistinctCard(g.snake);
    CellsCard(g.width, g.height);
    var s := Elems(g.snake);
    assert |s + g.food| == |s| + |g.food|;
    assert |s + g.food + g.empty| == |s + g.food| + |g.empty|;
  }

  /** Changing direction keeps the invariant. */
  lemma SetDirectionPreservesValid(g: Game, direction: int)
    requires Valid(g)
    requires SetDirection(g, direction).Ok?
    ensures Valid(SetDirection(g, direction).value)
  {}

  /** Setting the same direction twice is the same as setting it once, whether the first call
      was accepted or rejected as a turn into the neck. */
  lemma SetDirectionIdempotent(g: Game, direction: int)
    requires WellFormed(g)
    requires 0 <= direction <= 3
    ensures SetDirection(g, direction).Ok?
    ensures SetDirection(SetDirection(g, direction).value, direction) == SetDirection(g, direction)
  {}

  /** Spawning food keeps the invariant and never touches the snake. */
  lemma SpawnAllPreservesValid(g: Game, proposals: seq<Point>)
    requires Valid(g)
    ensures Valid(SpawnAll(g, proposals))
  {
    var r := SpawnAll(g, proposals);
    assert r.food + r.empty == g.food + g.empty;
  }

  /** Moving, growing or colliding keeps the invariant. */
  lemma AdvancePreservesValid(g: Game, scoring: ScoringAlgorithm)
    requires Valid(g)
    ensures Valid(Advance(g, scoring))
  {
    if !Collides(g) {
      if NextHead(g) in g.food {
        GrowKeepsValid(g, scoring);
      } else {
        MoveKeepsValid(g, scoring);
      }
    }
  }

  /** Growing into food keeps the invariant: the food cell joins the snake at its head. */
  lemma GrowKeepsValid(g: Game, scoring: ScoringAlgorithm)
    requires Valid(g) && !Collides(g) && NextHead(g) in g.food
    ensures Valid(Advance(g, scoring))
  {
    var r := Advance(g, scoring);
    var next := NextHead(g);
    NextTwiceMovesOn(g.snake[0], g.direction);
    assert r.snake == [next] + g.snake;
    PrependKeepsPath(next, g.snake);
    assert Elems(r.snake) == Elems(g.snake) + {next};
  }

  /** A plain move keeps the invariant: an empty cell joins the snake and the tail cell
      becomes empty. */
  lemma MoveKeepsValid(g: Game, scoring: ScoringAlgorithm)
    requires Valid(g) && !Collides(g) && NextHead(g) !in g.food
    ensures Valid(Advance(g, scoring))
  {
    var r := Advance(g, scoring);
    var next := NextHead(g);
    NextTwiceMovesOn(g.snake[0], g.direction);
    InBoundsIsCell(next, g.width, g.height);
    assert next in g.empty;
    var body := g.snake[..|g.snake| - 1];
    assert r.snake == [next] + body;
    DropLastElems(g.snake);
    assert Connected(body) by {
      forall i | 0 <= i < |body| - 1
        ensures Adjacent(body[i], body[i + 1])
      {
        assert body[i] == g.snake[i] && body[i + 1] == g.snake[i + 1];
      }
    }
    PrependKeepsPath(next, body);
    assert Elems(r.snake) == Elems(body) + {next};
  }

  /** Putting a new head in front of a duplicate-free path keeps it a duplicate-free path,
      provided the new cell is fresh and next to the old head. */
  lemma PrependKeepsPath(next: Point, body: seq<Point>)
    requires |body| >= 1 && Distinct(body) && Connected(body)
    requires next !in body && Adjacent(next, body[0])
    ensures Distinct([next] + body) && Connected([next] + body)
    ensures Elems([next] + body) == Elems(body) + {next}
  {
    var s := [next] + body;
    DistinctAppend([next], body);
    forall i | 0 <= i < |s| - 1
      ensures Adjacent(s[i], s[i + 1])
    {
      if i > 0 { assert s[i] == body[i - 1] && s[i + 1] == body[i]; }
    }
  }

  /** One tick keeps the invariant. */
  lemma UpdatePreservesValid(g: Game, scoring: ScoringAlgorithm, spawning: SpawningAlgorithm)
    requires Valid(g)
    ensures Valid(Update(g, scoring, spawning))
  {
    if !g.gameOver {
      var scored := Tick(g, scoring);
      var proposals := spawning(GetEmpty(scored), scored.timeAlive);
      var fed := SpawnAll(scored, proposals);
      assert Valid(scored);
      SpawnAllPreservesValid(scored, proposals);
      AdvancePreservesValid(fed, scoring);
      assert Update(g, scoring, spawning) == Advance(fed, scoring);
    }
  }

  /** Every game reachable from a valid game by ticks satisfies the invariant. */
  lemma {:induction false} RunPreservesValid(g: Game, scoring: ScoringAlgorithm, spawning: SpawningAlgorithm, n: nat)
    requires Valid(g)
    ensures Valid(Run(g, scoring, spawning, n))
    decreases n, 1
  {
    if n > 0 {
      RunStepPreservesValid(g, scoring, spawning, n);
    }
  }

  /** The inductive step of `RunPreservesValid`: tick `n` keeps what the first `n - 1` kept. */
  lemma {:induction false} RunStepPreservesValid(g: Game, scoring: ScoringAlgorithm, spawning: SpawningAlgorithm, n: nat)
    requires Valid(g) && n > 0
    ensures Valid(Run(g, scoring, spawning, n))
    decreases n, 0
  {
    RunPreservesValid(g, scoring, spawning, n - 1);
    UpdatePreservesValid(Run(g, scoring, spawning, n - 1), scoring, spawning);
    RunUnfold(g, scoring, spawning, n);
  }

  lemma RunUnfold(g: Game, scoring: ScoringAlgorithm, spawning: SpawningAlgorithm, n: nat)
    requires WellFormed(g) && n > 0
    ensures Run(g, scoring, spawning, n) == Update(Run(g, scoring, spawning, n - 1), scoring, spawning)
  {}

  /** So snake, food and empty cells account for the whole board after any number of ticks. */
  lemma RunKeepsCount(g: Game, scoring: ScoringAlgorithm, spawning: SpawningAlgorithm, n: nat)
    requires Valid(g)
    ensures var r := Run(g, scoring, spawning, n);
            |r.snake| + |r.food| + |r.empty| == g.width * g.height
  {
    RunPreservesValid(g, scoring, spawning, n);
    PartitionCount(Run(g, scoring, spawning, n));
  }

  /** Game over is one-way: once a run has ended, further ticks change nothing at all. */
  lemma {:induction false} GameOverIsFinal(g: Game, scoring: ScoringAlgorithm, spawning: SpawningAlgorithm, m: nat, n: nat)
    requires WellFormed(g)
    requires m <= n
    requires Run(g, scoring, spawning, m).gameOver
    ensures Run(g, scoring, spawning, n) == Run(g, scoring, spawning, m)
  {
    if n > m {
      GameOverIsFinal(g, scoring, spawning, m, n - 1);
      GameOverIsFinalStep(g, scoring, spawning, m, n);
    }
  }

  /** The inductive step of `GameOverIsFinal`: a tick of a finished game is the identity. */
  lemma GameOverIsFinalStep(g: Game, scoring: ScoringAlgorithm, spawning: SpawningAlgorithm, m: nat, n: nat)
    requires WellFormed(g) && m < n
    requires Run(g, scoring, spawning, m).gameOver
    requires Run(g, scoring, spawning, n - 1) == Run(g, scoring, spawning, m)
    ensures Run(g, scoring, spawning, n) == Run(g, scoring, spawning, m)
  {
    RunUnfold(g, scoring, spawning, n);
  }

  /** Changing direction never revives a finished game. */
  lemma SetDirectionKeepsGameOver(g: Game, direction: int)
    requires WellFormed(g)
    requires SetDirection(g, direction).Ok?
    ensures SetDirection(g, direction).value.gameOver == g.gameOver
    ensures SetDirection(g, direction).value.score == g.score
  {}

  /** Heading into the cell the tail occupies ends the game, although the tail would leave it
      during the same move. */
  lemma TailCellIsFatal(g: Game, scoring: ScoringAlgorithm)
    requires |g.snake| >= 1
    requires NextHead(g) == Last(g.snake)
    ensures Advance(g, scoring).gameOver
    ensures Advance(g, scoring).snake == g.snake
  {
    assert Last(g.snake) in g.snake;
  }

  /** Eating: the snake grows by exactly one cell, at the head, and the board stays partitioned. */
  lemma GrowthLaw(g: Game, scoring: ScoringAlgorithm)
    requires Valid(g)
    requires !Collides(g) && NextHead(g) in g.food
    ensures Advance(g, scoring).snake == [NextHead(g)] + g.snake
    ensures |Advance(g, scoring).food| == |g.food| - 1
    ensures Advance(g, scoring).empty == g.empty
  {
    var r := Advance(g, scoring);
    assert r.snake == [r.snake[0]] + r.snake[1..];
  }

  /** A plain move: same length, `next` leaves the empty cells and the old tail joins them. */
  lemma MoveLaw(g: Game, scoring: ScoringAlgorithm)
    requires Valid(g)
    requires !Collides(g) && NextHead(g) !in g.food
    ensures Advance(g, scoring).snake == [NextHead(g)] + g.snake[..|g.snake| - 1]
    ensures NextHead(g) in g.empty && NextHead(g) !in Advance(g, scoring).empty
    ensures Last(g.snake) !in g.empty && Last(g.snake) in Advance(g, scoring).empty
    ensures |Advance(g, scoring).empty| == |g.empty|
  {
    var r := Advance(g, scoring);
    assert r.snake == [r.snake[0]] + r.snake[1..];
    assert NextHead(g) in Cells(g.width, g.height);
    assert Last(g.snake) in Elems(g.snake);
    assert |g.empty - {NextHead(g)}| == |g.empty| - 1;
  }

  /** The reference spawning policy, called on the engine's empty cells, always proposes a
      cell that `spawnFood` accepts: on a spawning tick with an empty cell available, food
      grows by exactly one cell taken from the empty ones. */
  lemma MySpawningAccepted(g: Game, timeAlive: int, draw: nat)
    requires Valid(g)
    requires timeAlive % 5 == 0 && g.empty != {}
    ensures var r := SpawnAll(g, MySpawn(GetEmpty(g), timeAlive, draw));
            && |r.food| == |g.food| + 1
            && |r.empty| == |g.empty| - 1
            && r.food - g.food <= g.empty
  {
    var cells := GetEmpty(g);
    var p :| p in g.empty;
    InBoundsIsCell(p, g.width, g.height);
    assert p in cells;
    var proposals := MySpawn(cells, timeAlive, draw);
    assert proposals == [proposals[0]];
    assert proposals[0] in cells;
    assert proposals[0] in g.empty;
    SpawnOneEmptyCell(g, proposals[0]);
  }

  /** The reference spawning policy as `update` consults it: on every fifth tick with a free
      cell exactly one empty cell becomes food before the snake advances; on any other tick the
      food and empty cells are left as they were. */
  lemma MySpawningTick(g: Game, scoring: ScoringAlgorithm, draws: int -> nat)
    requires Valid(g) && !g.gameOver
    ensures var scored := Tick(g, scoring);
            var fed := SpawnAll(scored, MySpawning(draws)(GetEmpty(scored), scored.timeAlive));
            && ((g.timeAlive + 1) % 5 == 0 && g.empty != {} ==>
                  |fed.food| == |g.food| + 1 && fed.food - g.food <= g.empty)
            && ((g.timeAlive + 1) % 5 != 0 ==> fed.food == g.food && fed.empty == g.empty)
  {
    var scored := Tick(g, scoring);
    TickKeepsCells(g, scoring);
    var proposals := MySpawning(draws)(GetEmpty(scored), scored.timeAlive);
    assert proposals == MySpawn(GetEmpty(scored), g.timeAlive + 1, draws(g.timeAlive + 1));
    MySpawnTickCells(scored, g.timeAlive + 1, draws(g.timeAlive + 1));
  }

  /** Paying the tick score changes only the time and the score, so the invariant holds. */
  lemma TickKeepsCells(g: Game, scoring: ScoringAlgorithm)
    requires Valid(g)
    ensures var scored := Tick(g, scoring);
            && Valid(scored) && scored.timeAlive == g.timeAlive + 1
            && scored.food == g.food && scored.empty == g.empty
  {}

  /** `MySpawningTick` for one draw, on the game after the tick score is paid. */
  lemma MySpawnTickCells(g: Game, timeAlive: int, draw: nat)
    requires Valid(g)
    ensures var fed := SpawnAll(g, MySpawn(GetEmpty(g), timeAlive, draw));
            && (timeAlive % 5 == 0 && g.empty != {} ==>
                  |fed.food| == |g.food| + 1 && fed.food - g.food <= g.empty)
            && (timeAlive % 5 != 0 ==> fed.food == g.food && fed.empty == g.empty)
  {
    if timeAlive % 5 == 0 && g.empty != {} {
      MySpawningAccepted(g, timeAlive, draw);
    } else if timeAlive % 5 != 0 {
      assert MySpawn(GetEmpty(g), timeAlive, draw) == [];
    }
  }

  /** Spawning a single proposal that is an empty cell moves exactly that cell into the food. */
  lemma SpawnOneEmptyCell(g: Game, p: Point)
    requires p in g.empty && g.food !! g.empty
    ensures var r := SpawnAll(g, [p]);
            && r.food == g.food + {p} && r.empty == g.empty - {p}
            && |r.food| == |g.food| + 1 && |r.empty| == |g.empty| - 1
  {
    assert Elems([p]) == {p};
    var r := SpawnAll(g, [p]);
    assert r.food == g.food + {p} && r.empty == g.empty - {p};
    assert p !in g.food;
    assert |g.food + {p}| == |g.food| + 1;
    assert |g.empty - {p}| == |g.empty| - 1;
  }

  /** With the reference scoring policy a game still running after `n` ticks has gained
      exactly one point per tick. */
  lemma {:induction false} MyScoringCountsTicks(g: Game, spawning: SpawningAlgorithm, n: nat)
    requires WellFormed(g)
    ensures var r := Run(g, MyScoring(), spawning, n);
            !r.gameOver ==> r.score == g.score + n && r.timeAlive == g.timeAlive + n
  {
    if n > 0 {
      MyScoringCountsTicks(g, spawning, n - 1);
      MyScoringCountsTicksStep(g, spawning, n);
    }
  }

  /** The inductive step of `MyScoringCountsTicks`: one more tick survived is one more point. */
  lemma MyScoringCountsTicksStep(g: Game, spawning: SpawningAlgorithm, n: nat)
    requires WellFormed(g) && n > 0
    requires var prev := Run(g, MyScoring(), spawning, n - 1);
             !prev.gameOver ==> prev.score == g.score + n - 1 && prev.timeAlive == g.timeAlive + n - 1
    ensures var r := Run(g, MyScoring(), spawning, n);
            !r.gameOver ==> r.score == g.score + n && r.timeAlive == g.timeAlive + n
  {
    RunUnfold(g, MyScoring(), spawning, n);
    MyScoringLiveTick(Run(g, MyScoring(), spawning, n - 1), spawning);
  }

  /** With the reference scoring policy a tick the snake survives pays exactly one point. */
  lemma MyScoringLiveTick(g: Game, spawning: SpawningAlgorithm)
    requires WellFormed(g)
    ensures var r := Update(g, MyScoring(), spawning);
            !r.gameOver ==> !g.gameOver && r.score == g.score + 1 && r.timeAlive == g.timeAlive + 1
  {
    MyScoringLaws(|g.snake|, g.timeAlive + 1, g.timeAlive + 1);
  }

  /** With the reference scoring policy, the tick on which the snake crashes pays one point
      plus five per segment, and leaves the snake where it was. */
  lemma MyScoringCrashTick(g: Game, spawning: SpawningAlgorithm)
    requires WellFormed(g)
    requires !g.gameOver && Update(g, MyScoring(), spawning).gameOver
    ensures Update(g, MyScoring(), spawning).score == g.score + 1 + 5 * |g.snake|
    ensures Update(g, MyScoring(), spawning).snake == g.snake
  {
    MyScoringLaws(|g.snake|, g.timeAlive + 1, g.timeAlive + 1);
  }

  /** With the reference scoring policy, a game still running after `n` ticks whose snake is
      heading into a wall or into itself ends on tick `n + 1`, having scored one point per tick
      plus five per segment of the crashing snake. */
  lemma MyScoringFinalScore(g: Game, spawning: SpawningAlgorithm, n: nat)
    requires WellFormed(g)
    ensures var prev := Run(g, MyScoring(), spawning, n);
            var r := Run(g, MyScoring(), spawning, n + 1);
            !prev.gameOver && Collides(prev) ==>
              r.gameOver && r.score == g.score + (n + 1) + 5 * |prev.snake|
  {
    var prev := Run(g, MyScoring(), spawning, n);
    if !prev.gameOver && Collides(prev) {
      MyScoringCountsTicks(g, spawning, n);
      CollisionEndsTick(prev, MyScoring(), spawning);
      MyScoringCrashTick(prev, spawning);
    }
  }

  /** A running game whose snake is heading into a wall or into itself ends on the next tick:
      spawning food never changes the snake, its direction or the board. */
  lemma CollisionEndsTick(g: Game, scoring: ScoringAlgorithm, spawning: SpawningAlgorithm)
    requires WellFormed(g) && !g.gameOver && Collides(g)
    ensures Update(g, scoring, spawning).gameOver
  {
    var scored := Tick(g, scoring);
    var fed := SpawnAll(scored, spawning(GetEmpty(scored), scored.timeAlive));
    assert NextHead(fed) == NextHead(g);
  }

  /** A tick on which the policy proposes nothing and the next cell is free: the snake moves
      one cell, keeping its length. */
  lemma QuietMove(g: Game, scoring: ScoringAlgorithm, spawning: SpawningAlgorithm)
    requires WellFormed(g) && !g.gameOver
    requires spawning(GetEmpty(Tick(g, scoring)), g.timeAlive + 1) == []
    requires !Collides(g) && NextHead(g) !in g.food
    ensures var r := Update(g, scoring, spawning);
            && r.snake == [NextHead(g)] + g.snake[..|g.snake| - 1]
            && r.food == g.food && !r.gameOver && r.timeAlive == g.timeAlive + 1
            && r.score == g.score + scoring.update(|g.snake|, g.timeAlive + 1)
  {
    var scored := Tick(g, scoring);
    assert SpawnAll(scored, []) == scored;
    var r := Update(g, scoring, spawning);
    assert r == Advance(scored, scoring);
    assert r.snake == [r.snake[0]] + r.snake[1..];
  }

  /** A tick on which the policy proposes exactly the cell ahead, which is empty: the snake
      eats it at once and grows by one. */
  lemma FedAndEaten(g: Game, scoring: ScoringAlgorithm, spawning: SpawningAlgorithm)
    requires WellFormed(g) && !g.gameOver
    requires spawning(GetEmpty(Tick(g, scoring)), g.timeAlive + 1) == [NextHead(g)]
    requires NextHead(g) in g.empty && NextHead(g) !in g.food && !Collides(g)
    ensures var r := Update(g, scoring, spawning);
            && r.snake == [NextHead(g)] + g.snake
            && r.food == g.food && !r.gameOver && r.timeAlive == g.timeAlive + 1
            && r.score == g.score + scoring.update(|g.snake|, g.timeAlive + 1)
  {
    var scored := Tick(g, scoring);
    var fed := SpawnAll(scored, [NextHead(g)]);
    assert Elems([NextHead(g)]) == {NextHead(g)};
    assert fed.food == g.food + {NextHead(g)};
    var r := Update(g, scoring, spawning);
    assert r == Advance(fed, scoring);
    assert NextHead(fed) == NextHead(g);
    assert r.snake == [r.snake[0]] + r.snake[1..];
    assert r.food == g.food;
  }
}

=== FILE: grid.dfy ===
/** The rectangular board of Project4/SnakeGame.java: bounds, the set of cells, and the scan order. */
module Grid {
  import opened Points
  import opened Seqs

  /** MIN_WIDTH and MIN_HEIGHT. */
  const MinWidth: int := 5
  const MinHeight: int := 5

  /** Every cell of a `width` x `height` board. */
  function Cells(width: int, height: int): set<Point> {
    set x: int, y: int | 0 <= x < width && 0 <= y < height :: Point(x, y)
  }

  /** `inBounds`: whether `p` lies on the board. */
  predicate InBounds(p: Point, width: int, height: int) {
    p.x >= 0 && p.x < width && p.y >= 0 && p.y < height
  }

  /** The cells on the board are exactly the members of `Cells`. */
  lemma InBoundsIsCell(p: Point, width: int, height: int)
    ensures InBounds(p, width, height) <==> p in Cells(width, height)
  {
    if InBounds(p, width, height) {
      assert p == Point(p.x, p.y);
    }
  }

  /** The cells (x, 0), ..., (x, n - 1), in that order. */
  function Column(x: int, n: nat): (c: seq<Point>)
    ensures |c| == n
    ensures forall p {:trigger p in c} :: p in c <==> p.x == x && 0 <= p.y < n
    ensures Distinct(c)
  {
    if n == 0 then []
    else
      var front := Column(x, n - 1);
      DistinctAppend(front, [Point(x, n - 1)]);
      front + [Point(x, n - 1)]
  }

  /** The board listed column by column, the order in which the constructor's nested loop
      visits it: every cell exactly once. */
  function ScanOrder(width: nat, height: nat): (s: seq<Point>)
    ensures |s| == width * height
    ensures forall p {:trigger p in s} :: p in s <==> InBounds(p, width, height)
    ensures Distinct(s)
  {
    if width == 0 then []
    else
      var front := ScanOrder(width - 1, height);
      var column := Column(width - 1, height);
      DistinctAppend(front, column);
      front + column
  }

  /** A board has exactly width * height cells. */
  lemma CellsCard(width: nat, height: nat)
    ensures |Cells(width, height)| == width * height
  {
    var s := ScanOrder(width, height);
    forall p
      ensures p in Elems(s) <==> p in Cells(width, height)
    {
      InBoundsIsCell(p, width, height);
    }
    assert Elems(s) == Cells(width, height);
    DistinctCard(s);
  }
}

=== FILE: points.dfy ===
/** The `Point` value record of Project4/Point.java. */
module Points {

  /** A grid cell; x grows to the east, y grows to the south (screen convention). */
  datatype Point = Point(x: int, y: int)

  /** `Point.equals`: two points are equal when both coordinates coincide. */
  function Equals(p: Point, other: Point): (r: bool)
    ensures r <==> p == other
  {
    other.x == p.x && other.y == p.y
  }

  function Abs(n: int): nat {
    if n < 0 then -n else n
  }

  /** Two cells that share an edge. */
  predicate Adjacent(p: Point, q: Point) {
    Abs(p.x - q.x) + Abs(p.y - q.y) == 1
  }

  /** Consecutive cells of `s` share an edge: `s` is a path through the grid. */
  predicate Connected(s: seq<Point>) {
    forall i :: 0 <= i < |s| - 1 ==> Adjacent(s[i], s[i + 1])
  }
}

=== FILE: scenarios.dfy ===
/** Concrete games from the start position, stated for every accepted board (`ScoreAfterCrash`
    for every width at height 5), plus the refusal of a narrow board: they pin the start cells,
    the north and south vectors, the reversal guard, the size check and the reference scores. */
module Scenarios {
  import opened Points
  import opened Grid
  import opened Directions
  import opened Scoring
  import opened Spawning
  import opened SnakeGame
  import GameProofs

  /** A spawning policy that proposes `p` on the first tick and nothing afterwards. */
  function FeedOnce(p: Point): SpawningAlgorithm {
    (empty: seq<Point>, timeAlive: int) => if timeAlive == 1 then [p] else []
  }

  /** A board narrower than five cells is refused, whatever its height. */
  lemma NarrowBoardRefused(height: int)
    ensures Init(4, height) == Err(WidthTooSmall(4))
  {}

  /** One tick with the default policies moves the snake one cell north and changes neither
      the score nor the game-over flag. */
  lemma FirstTickMovesNorth(width: int, height: int)
    requires width >= MinWidth && height >= MinHeight
    ensures Init(width, height).Ok?
    ensures var g := Update(Init(width, height).value, NoScoring(), NoSpawning());
            && g.snake == [Point(width / 2, height / 2 - 1), Point(width / 2, height / 2), Point(width / 2, height / 2 + 1)]
            && g.score == 0 && g.timeAlive == 1 && !g.gameOver
  {
    GameProofs.InitSnake(width, height);
    FirstTickFrom(Init(width, height).value);
  }

  lemma FirstTickFrom(g: Game)
    requires g.width >= MinWidth && g.height >= MinHeight && !g.gameOver
    requires g.direction == North && g.score == 0 && g.timeAlive == 0 && g.food == {}
    requires g.snake == InitialSnake(g.width, g.height)
    ensures var r := Update(g, NoScoring(), NoSpawning());
            && r.snake == [Point(g.width / 2, g.height / 2 - 1), Point(g.width / 2, g.height / 2), Point(g.width / 2, g.height / 2 + 1)]
            && r.score == 0 && r.timeAlive == 1 && !r.gameOver
  {
    FirstMoveIsFree(g);
    GameProofs.QuietMove(g, NoScoring(), NoSpawning());
  }

  /** From the starting position the cell north of the head is free, on the board, and not food. */
  lemma FirstMoveIsFree(g: Game)
    requires g.width >= MinWidth && g.height >= MinHeight
    requires g.direction == North && g.food == {}
    requires g.snake == InitialSnake(g.width, g.height)
    ensures NextHead(g) == Point(g.width / 2, g.height / 2 - 1)
    ensures !Collides(g) && NextHead(g) !in g.food
    ensures g.snake[..|g.snake| - 1] == [Point(g.width / 2, g.height / 2), Point(g.width / 2, g.height / 2 + 1)]
  {
    assert NextHead(g) == Point(g.width / 2, g.height / 2 - 1);
  }

  /** Turning south from the start would face the neck, so the snake keeps heading north. */
  lemma ReversalRejected(width: int, height: int)
    requires width >= MinWidth && height >= MinHeight
    ensures Init(width, height).Ok?
    ensures SetDirection(Init(width, height).value, DirSouth) == Ok(Init(width, height).value)
    ensures GetDirection(SetDirection(Init(width, height).value, DirSouth).value) == DirNorth
  {
    GameProofs.InitState(width, height);
  }

  /** With the reference scoring on a board five cells high: the snake eats on tick 1, moves
      on tick 2 and hits the north wall on tick 3 with four segments, for 3 + 5 * 4 = 23 points. */
  lemma ScoreAfterCrash(width: int)
    requires width >= MinWidth
    ensures Init(width, 5).Ok?
    ensures var g := Run(Init(width, 5).value, MyScoring(), FeedOnce(Point(width / 2, 1)), 3);
            g.gameOver && g.score == 23 && g.timeAlive == 3 && |g.snake| == 4
  {
    GameProofs.InitSnake(width, 5);
    var g0 := Init(width, 5).value;
    InBoundsIsCell(Point(width / 2, 1), width, 5);
    assert Point(width / 2, 1) in g0.empty;
    CrashFrom(g0);
  }

  lemma CrashFrom(g0: Game)
    requires g0.width >= MinWidth && g0.height == 5 && !g0.gameOver
    requires g0.direction == North && g0.score == 0 && g0.timeAlive == 0 && g0.food == {}
    requires g0.snake == [Point(g0.width / 2, 2), Point(g0.width / 2, 3), Point(g0.width / 2, 4)]
    requires Point(g0.width / 2, 1) in g0.empty
    ensures var g := Run(g0, MyScoring(), FeedOnce(Point(g0.width / 2, 1)), 3);
            g.gameOver && g.score == 23 && g.timeAlive == 3 && |g.snake| == 4
  {
    var cx := g0.width / 2;
    var sc := MyScoring();
    var sp := FeedOnce(Point(cx, 1));
    var g1 := Update(g0, sc, sp);
    var g2 := Update(g1, sc, sp);
    var g3 := Update(g2, sc, sp);
    EatOnFirstTick(g0);
    MoveOnSecondTick(g1, cx);
    CrashOnThirdTick(g2, cx);
    assert Run(g0, sc, sp, 1) == g1;
    assert Run(g0, sc, sp, 2) == g2;
    assert Run(g0, sc, sp, 3) == g3;
  }

  lemma EatOnFirstTick(g0: Game)
    requires g0.width >= MinWidth && g0.height == 5 && !g0.gameOver
    requires g0.direction == North && g0.score == 0 && g0.timeAlive == 0 && g0.food == {}
    requires g0.snake == [Point(g0.width / 2, 2), Point(g0.width / 2, 3), Point(g0.width / 2, 4)]
    requires Point(g0.width / 2, 1) in g0.empty
    ensures var g1 := Update(g0, MyScoring(), FeedOnce(Point(g0.width / 2, 1)));
            && g1.width == g0.width && g1.height == 5 && g1.direction == North
            && g1.snake == [Point(g0.width / 2, 1), Point(g0.width / 2, 2), Point(g0.width / 2, 3), Point(g0.width / 2, 4)]
            && g1.food == {} && g1.score == 1 && g1.timeAlive == 1 && !g1.gameOver
  {
    var sc := MyScoring();
    var sp := FeedOnce(Point(g0.width / 2, 1));
    assert NextHead(g0) == Point(g0.width / 2, 1) && !Collides(g0);
    GameProofs.FedAndEaten(g0, sc, sp);
    MyScoringLaws(3, 1, 1);
  }

  lemma MoveOnSecondTick(g1: Game, cx: int)
    requires g1.width >= MinWidth && g1.height == 5 && !g1.gameOver && cx == g1.width / 2
    requires g1.direction == North && g1.score == 1 && g1.timeAlive == 1 && g1.food == {}
    requires g1.snake == [Point(cx, 1), Point(cx, 2), Point(cx, 3), Point(cx, 4)]
    ensures var g2 := Update(g1, MyScoring(), FeedOnce(Point(cx, 1)));
            && g2.width == g1.width && g2.height == 5 && g2.direction == North
            && g2.snake == [Point(cx, 0), Point(cx, 1), Point(cx, 2), Point(cx, 3)]
            && g2.score == 2 && g2.timeAlive == 2 && !g2.gameOver
  {
    var sc := MyScoring();
    var sp := FeedOnce(Point(cx, 1));
    assert NextHead(g1) == Point(cx, 0) && !Collides(g1);
    GameProofs.QuietMove(g1, sc, sp);
    MyScoringLaws(4, 2, 2);
    assert g1.snake[..|g1.snake| - 1] == [Point(cx, 1), Point(cx, 2), Point(cx, 3)];
  }

  lemma CrashOnThirdTick(g2: Game, cx: int)
    requires g2.width >= MinWidth && g2.height == 5 && !g2.gameOver && cx == g2.width / 2
    requires g2.direction == North && g2.score == 2 && g2.timeAlive == 2
    requires g2.snake == [Point(cx, 0), Point(cx, 1), Point(cx, 2), Point(cx, 3)]
    ensures var g3 := Update(g2, MyScoring(), FeedOnce(Point(cx, 1)));
            g3.gameOver && g3.score == 23 && g3.timeAlive == 3 && |g3.snake| == 4
  {
    var sp := FeedOnce(Point(cx, 1));
    assert NextHead(g2) == Point(cx, -1) && Collides(g2);
    GameProofs.CollisionEndsTick(g2, MyScoring(), sp);
    GameProofs.MyScoringCrashTick(g2, sp);
  }
}

=== FILE: scoring.dfy ===
/** The scoring policies: the `ScoringAlgorithm` interface (Project4/ScoringAlgorithm.java), the
    do-nothing policy of the two-argument `SnakeGame` constructor, and Project4/MyScoringAlgorithm.java. */
module Scoring {

  /** A scoring policy: points added on every tick (`update`) and once when the game ends
      (`gameOver`), each from the snake's size and the time alive. */
  datatype ScoringAlgorithm = ScoringAlgorithm(update: (int, int) -> int, gameOver: (int, int) -> int)

  /** The default policy: the score never changes. */
  function NoScoring(): ScoringAlgorithm {
    ScoringAlgorithm((snakeSize, timeAlive) => 0, (snakeSize, timeAlive) => 0)
  }

  /** MyScoringAlgorithm.update: one point for every tick survived. */
  function MyUpdate(snakeSize: int, timeAlive: int): int {
    1
  }

  /** MyScoringAlgorithm.gameOver: five points per snake segment. */
  function MyGameOver(snakeSize: int, timeAlive: int): int {
    snakeSize * 5
  }

  function MyScoring(): ScoringAlgorithm {
    ScoringAlgorithm(MyUpdate, MyGameOver)
  }

  /** The reference policy rewards survival by a constant and growth in proportion to the size,
      ignores the time alive at game over, and never takes points away. */
  lemma MyScoringLaws(snakeSize: int, timeAlive: int, otherTime: int)
    ensures MyScoring().update(snakeSize, timeAlive) == 1
    ensures MyScoring().gameOver(snakeSize, timeAlive) == 5 * snakeSize
    ensures MyScoring().gameOver(snakeSize, timeAlive) == MyScoring().gameOver(snakeSize, otherTime)
    ensures snakeSize >= 0 ==> MyScoring().update(snakeSize, timeAlive) >= 0
    ensures snakeSize >= 0 ==> MyScoring().gameOver(snakeSize, timeAlive) >= 0
  {}
}

=== FILE: seqs.dfy ===
/** Helpers on sequences of cells shared by the grid and the game: distinctness, element sets, filtering. */
module Seqs {
  import opened Points

  /** No element occurs twice in `s`. */
  predicate Distinct(s: seq<Point>) {
    forall i, j :: 0 <= i < j < |s| ==> s[i] != s[j]
  }

  /** The set of elements of `s`. */
  function Elems(s: seq<Point>): (r: set<Point>)
    ensures forall x {:trigger x in r} :: x in r <==> x in s
  {
    set x | x in s
  }

  /** The last element of a non-empty sequence. */
  function Last(s: seq<Point>): Point
    requires |s| > 0
  {
    s[|s| - 1]
  }

  /** The elements of `s` that lie in `keep`, in their original order. */
  function Keep(s: seq<Point>, keep: set<Point>): (r: seq<Point>)
    ensures forall x {:trigger x in r} :: x in r <==> x in s && x in keep
    ensures Distinct(s) ==> Distinct(r)
    ensures |r| <= |s|
  {
    if s == [] then []
    else
      assert forall x :: x in s ==> x == s[0] || x in s[1..];
      if s[0] in keep then
        var rest := Keep(s[1..], keep);
        assert Distinct(s) ==> s[0] !in s[1..] && s[0] !in rest;
        [s[0]] + rest
      else Keep(s[1..], keep)
  }

  /** A duplicate-free sequence has as many distinct elements as it has positions. */
  lemma {:induction false} DistinctCard(s: seq<Point>)
    requires Distinct(s)
    ensures |Elems(s)| == |s|
  {
    if s != [] {
      assert Distinct(s[1..]);
      DistinctCard(s[1..]);
      assert Elems(s) == {s[0]} + Elems(s[1..]);
      assert s[0] !in s[1..];
    }
  }

  /** Concatenating two duplicate-free sequences with no common element keeps it duplicate-free. */
  lemma DistinctAppend(a: seq<Point>, b: seq<Point>)
    requires Distinct(a) && Distinct(b)
    requires forall x :: x in a ==> x !in b
    ensures Distinct(a + b)
  {
    forall i, j | 0 <= i < j < |a + b|
      ensures (a + b)[i] != (a + b)[j]
    {
      if j < |a| {
      } else if i >= |a| {
        assert (a + b)[i] == b[i - |a|] && (a + b)[j] == b[j - |a|];
      } else {
        assert (a + b)[i] in a && (a + b)[j] in b;
      }
    }
  }

  /** Dropping the last element of a duplicate-free sequence removes exactly that element. */
  lemma DropLastElems(s: seq<Point>)
    requires |s| > 0 && Distinct(s)
    ensures Elems(s[..|s| - 1]) == Elems(s) - {Last(s)}
    ensures Distinct(s[..|s| - 1])
  {
    forall k | 0 <= k < |s| - 1
      ensures s[k] != Last(s)
    {
    }
    assert s == s[..|s| - 1] + [Last(s)];
  }
}

=== FILE: snake_game.dfy ===
/** The game-state engine of Project4/SnakeGame.java as an immutable state and pure transitions.
    The scoring and spawning policies are parameters of the transitions rather than fields. */
module SnakeGame {
  import opened Points
  import opened Seqs
  import opened Grid
  import opened Directions
  import opened Scoring
  import opened Spawning

  /** The exceptions the engine throws on bad arguments. */
  datatype GameError =
    | WidthTooSmall(width: int)
    | HeightTooSmall(height: int)
    | InvalidDirection(direction: int)

  datatype Result<T> = Ok(value: T) | Err(error: GameError)

  /** The fields of a `SnakeGame` object. `snake` is ordered head first; `food` and `empty`
      are kept as sets and their order is not modelled (see README, Left out). */
  datatype Game = Game(
    width: int,
    height: int,
    snake: seq<Point>,
    food: set<Point>,
    empty: set<Point>,
    score: int,
    timeAlive: int,
    gameOver: bool,
    direction: Direction)

  /** The shape every constructed game has, which the transitions rely on. */
  predicate WellFormed(g: Game) {
    g.width >= 0 && g.height >= 0 && |g.snake| >= 2
  }

  /** The object invariant: the snake is a duplicate-free path of at least three cells that is
      not heading into its own neck, and snake, food and empty cells partition the board. */
  predicate Valid(g: Game) {
    && g.width >= MinWidth && g.height >= MinHeight
    && g.timeAlive >= 0
    && |g.snake| >= 3
    && Distinct(g.snake)
    && Connected(g.snake)
    && Next(g.snake[0], g.direction) != g.snake[1]
    && Elems(g.snake) !! g.food
    && Elems(g.snake) !! g.empty
    && g.food !! g.empty
    && Elems(g.snake) + g.food + g.empty == Cells(g.width, g.height)
  }

  /** `r` differs from `g` at most in which cells hold food and which are empty. */
  predicate OnlyCellsChange(g: Game, r: Game) {
    && r.width == g.width && r.height == g.height && r.snake == g.snake
    && r.score == g.score && r.timeAlive == g.timeAlive && r.gameOver == g.gameOver
    && r.direction == g.direction
  }

  /** `r` differs from `g` at most in its direction. */
  predicate OnlyDirectionChanges(g: Game, r: Game) {
    && r.width == g.width && r.height == g.height && r.snake == g.snake
    && r.food == g.food && r.empty == g.empty
    && r.score == g.score && r.timeAlive == g.timeAlive && r.gameOver == g.gameOver
  }

  /** The starting snake: head in the centre, body stacked southwards. */
  function InitialSnake(width: int, height: int): seq<Point> {
    var cx := width / 2;
    var cy := height / 2;
    [Point(cx, cy), Point(cx, cy + 1), Point(cx, cy + 2)]
  }

  /** The constructor. The width is checked before the height; the direction is then set
      through `SetDirection`, as the constructor itself does. */
  function Init(width: int, height: int): (r: Result<Game>)
    ensures r.Err? <==> width < MinWidth || height < MinHeight
    ensures width < MinWidth ==> r == Err(WidthTooSmall(width))
    ensures width >= MinWidth && height < MinHeight ==> r == Err(HeightTooSmall(height))
    ensures r.Ok? ==> r.value.width == width && r.value.height == height
    ensures r.Ok? ==> r.value.score == 0 && r.value.timeAlive == 0 && !r.value.gameOver
    ensures r.Ok? ==> r.value.direction == North && r.value.food == {}
  {
    if width < MinWidth then Err(WidthTooSmall(width))
    else if height < MinHeight then Err(HeightTooSmall(height))
    else
      var snake := InitialSnake(width, height);
      var g := Game(width, height, snake, {}, Cells(width, height) - Elems(snake), 0, 0, false, North);
      SetDirection(g, DirNorth)
  }

  /** `setDirection`: rejects a value that is not a DIR_* constant, silently ignores a turn
      whose next cell is the neck, and otherwise changes only the direction. */
  function SetDirection(g: Game, direction: int): (r: Result<Game>)
    requires |g.snake| >= 2
    ensures r.Err? <==> direction < 0 || direction > 3
    ensures r.Err? ==> r.error == InvalidDirection(direction)
    ensures r.Ok? ==> OnlyDirectionChanges(g, r.value)
    ensures r.Ok? ==> (r.value.direction == FromCode(direction)
                       <==> Next(g.snake[0], FromCode(direction)) != g.snake[1] || g.direction == FromCode(direction))
    ensures r.Ok? && Next(g.snake[0], FromCode(direction)) == g.snake[1] ==> r.value == g
  {
    if direction < 0 || direction > 3 then Err(InvalidDirection(direction))
    else
      var head := g.snake[0];
      var neck := g.snake[1];
      var next := Next(head, FromCode(direction));
      if Equals(next, neck) then Ok(g)
      else Ok(g.(direction := FromCode(direction)))
  }

  /** `getDirection`: the DIR_* constant of the current direction. */
  function GetDirection(g: Game): (d: int)
    ensures 0 <= d <= 3 && FromCode(d) == g.direction
  {
    Code(g.direction)
  }

  /** `getEmpty`: every empty cell on the board, once each, in scan order. */
  function GetEmpty(g: Game): (cells: seq<Point>)
    requires g.width >= 0 && g.height >= 0
    ensures Distinct(cells)
    ensures forall p {:trigger p in cells} :: p in cells <==> p in g.empty && InBounds(p, g.width, g.height)
  {
    Keep(ScanOrder(g.width, g.height), g.empty)
  }

  /** `spawnFood`: an empty cell becomes food; any other proposal is ignored. */
  function SpawnFood(g: Game, p: Point): (r: Game)
    ensures OnlyCellsChange(g, r)
    ensures r.food + r.empty == g.food + g.empty
    ensures p in g.empty ==> p in r.food && p !in r.empty
    ensures p !in g.empty ==> r == g
    ensures g.food !! g.empty ==> r.food !! r.empty
    ensures r.food >= g.food && r.empty <= g.empty
  {
    if p in g.empty then g.(empty := g.empty - {p}, food := g.food + {p})
    else g
  }

  /** The loop of `update` over the policy's proposals: exactly the proposed cells that were
      empty become food, whatever the order and the repetitions of the proposals. */
  function SpawnAll(g: Game, proposals: seq<Point>): (r: Game)
    ensures OnlyCellsChange(g, r)
    ensures forall p {:trigger p in r.food} :: p in r.food <==> p in g.food || (p in g.empty && p in proposals)
    ensures forall p {:trigger p in r.empty} :: p in r.empty <==> p in g.empty && p !in proposals
    decreases |proposals|
  {
    if proposals == [] then g
    else
      SpawnAll(SpawnFood(g, proposals[0]), proposals[1..])
  }

  /** The cell the head moves into on the next tick. */
  function NextHead(g: Game): Point
    requires |g.snake| >= 1
  {
    Next(g.snake[0], g.direction)
  }

  /** The losing condition of `advanceSnake`: the next cell is off the board or holds any
      snake segment, the tail included. */
  predicate Collides(g: Game)
    requires |g.snake| >= 1
  {
    NextHead(g) in g.snake || !InBounds(NextHead(g), g.width, g.height)
  }

  /** `advanceSnake`: on a collision the game ends and the game-over bonus is paid;
      on food the snake grows into it; otherwise it moves, freeing its tail cell. */
  function Advance(g: Game, scoring: ScoringAlgorithm): (r: Game)
    requires |g.snake| >= 1
    ensures r.width == g.width && r.height == g.height
    ensures r.timeAlive == g.timeAlive && r.direction == g.direction
    ensures r.gameOver <==> g.gameOver || Collides(g)
    ensures Collides(g) ==> r.score == g.score + scoring.gameOver(|g.snake|, g.timeAlive)
    ensures Collides(g) ==> r.snake == g.snake && r.food == g.food && r.empty == g.empty
    ensures |g.snake| <= |r.snake| <= |g.snake| + 1
    ensures !Collides(g) ==> r.score == g.score && r.snake[0] == NextHead(g)
    ensures !Collides(g) && NextHead(g) in g.food ==>
              r.snake[1..] == g.snake && r.food == g.food - {NextHead(g)} && r.empty == g.empty
    ensures !Collides(g) && NextHead(g) !in g.food ==>
              && |r.snake| == |g.snake|
              && r.snake[1..] == g.snake[..|g.snake| - 1]
              && r.food == g.food
              && r.empty == g.empty - {NextHead(g)} + {Last(g.snake)}
  {
    var next := NextHead(g);
    if next in g.snake || !InBounds(next, g.width, g.height) then
      g.(gameOver := true, score := g.score + scoring.gameOver(|g.snake|, g.timeAlive))
    else if next in g.food then
      g.(food := g.food - {next}, snake := [next] + g.snake)
    else
      g.(empty := g.empty - {next} + {Last(g.snake)}, snake := [next] + g.snake[..|g.snake| - 1])
  }

  /** `update`: one tick. A finished game is left alone; otherwise the time advances, the tick
      score is paid, the policy's proposals are spawned, and the snake advances. */
  function Update(g: Game, scoring: ScoringAlgorithm, spawning: SpawningAlgorithm): (r: Game)
    requires WellFormed(g)
    ensures WellFormed(r)
    ensures g.gameOver ==> r == g
    ensures r.width == g.width && r.height == g.height && r.direction == g.direction
    ensures !g.gameOver ==> r.timeAlive == g.timeAlive + 1
    ensures !g.gameOver ==> r.score == g.score + scoring.update(|g.snake|, g.timeAlive + 1)
                                      + (if r.gameOver then scoring.gameOver(|g.snake|, g.timeAlive + 1) else 0)
    ensures |g.snake| <= |r.snake| <= |g.snake| + 1
    ensures r.gameOver ==> r.snake == g.snake
    ensures !g.gameOver ==> (r.gameOver <==> Collides(g))
    ensures !r.gameOver ==> r.snake[0] == NextHead(g)
  {
    if g.gameOver then g
    else
      var scored := Tick(g, scoring);
      var fed := SpawnAll(scored, spawning(GetEmpty(scored), scored.timeAlive));
      assert NextHead(fed) == NextHead(g);
      Advance(fed, scoring)
  }

  /** The first two steps of `update`: the time advances, then the tick score is paid for
      the new time. */
  function Tick(g: Game, scoring: ScoringAlgorithm): Game {
    var ticked := g.(timeAlive := g.timeAlive + 1);
    ticked.(score := ticked.score + scoring.update(|ticked.snake|, ticked.timeAlive))
  }

  /** The game after `n` ticks of the driver. */
  function Run(g: Game, scoring: ScoringAlgorithm, spawning: SpawningAlgorithm, n: nat): (r: Game)
    requires WellFormed(g)
    ensures WellFormed(r)
    ensures r.width == g.width && r.height == g.height
    ensures g.gameOver ==> r == g
    ensures |r.snake| >= |g.snake|
  {
    if n == 0 then g else Update(Run(g, scoring, spawning, n - 1), scoring, spawning)
  }
}

=== FILE: spawning.dfy ===
/** The spawning policies: the `SpawningAlgorithm` interface (Project4/SpawningAlgorithm.java), the
    do-nothing policy of the two-argument `SnakeGame` constructor, and Project4/MySpawningAlgorithm.java. */
module Spawning {
  import opened Points

  /** A spawning policy: from the empty cells and the time alive, the cells at which the game
      should try to place food. */
  type SpawningAlgorithm = (seq<Point>, int) -> seq<Point>

  /** The default policy: never proposes anything. */
  function NoSpawning(): SpawningAlgorithm {
    (empty: seq<Point>, timeAlive: int) => []
  }

  /** MySpawningAlgorithm.update. On every fifth tick, when some cell is empty, it proposes
      the empty cell at a random index. The random generator is replaced by `draw`: any
      natural number, reduced below the number of empty cells, so that every index can be drawn.
      The algorithm only asks whether `timeAlive` is divisible by 5, and Java's truncating `%` and
      Dafny's Euclidean `%` give the same answer to that. */
  function MySpawn(empty: seq<Point>, timeAlive: int, draw: nat): (proposals: seq<Point>)
    ensures |proposals| <= 1
    ensures proposals != [] <==> timeAlive % 5 == 0 && |empty| > 0
    ensures forall p :: p in proposals ==> p in empty
  {
    if timeAlive % 5 != 0 || |empty| == 0 then []
    else [empty[draw % |empty|]]
  }

  /** The reference policy, with one random draw per tick. */
  function MySpawning(draws: int -> nat): SpawningAlgorithm {
    (empty: seq<Point>, timeAlive: int) => MySpawn(empty, timeAlive, draws(timeAlive))
  }

  /** On a spawning tick every empty cell can be the one proposed, and no other cell can. */
  lemma MySpawnReachesEveryCell(empty: seq<Point>, timeAlive: int, p: Point)
    requires timeAlive % 5 == 0
    ensures p in empty <==> exists draw: nat :: MySpawn(empty, timeAlive, draw) == [p]
  {
    if p in empty {
      var i :| 0 <= i < |empty| && empty[i] == p;
      assert i % |empty| == i;
      assert MySpawn(empty, timeAlive, i) == [p];
    }
  }
}
